=== FILE: README.md ===
# Social login + NLP backend: analyses store, text operations and profile projection

This project models the logic of the Express backend `server.js` of a small social-login demo.
The server keeps an in-memory list of "analyses". Each analysis records a text, the name of a text
operation, and the operation's result. Four routes list, create, update and delete these records.
The model covers those four routes, the deterministic parts of `runNlpOperation`, and the
`GET /profile` projection of the signed-in user.

Everything is pure functions over immutable values:

- `Json.Value` is a JSON value. Objects are `map<string, Value>`, and an absent key stands for a
  property that is `undefined`. `Json.Truthy` is JavaScript truthiness.
- `Analyses.Store` is the `analyses` array, a `seq<map<string, Value>>`. In each record, `"id"` is
  an ordinary key.
- Each route is a function `(store, request) -> Handled(response, store')`. `Http.Response` carries
  the status code and either a JSON body or no body at all (the 204 of delete).
- `Nlp.Analyzer` bundles the two third-party libraries (sentiment scoring and compromise's noun and
  entity extraction) as functions of the text. Their outputs are inputs to the model.
- `Date.now()` and `new Date().toISOString()` are the parameters `now` and `createdAt` of
  `Analyses.CreateAnalysis`. Nothing assumes that two creates get different ids.
- `Number(req.params.id)` is `NumberParse.ParseId`, which returns `Option<int>`. `Some(n)` stands for a
  parameter that is blank (`n` is 0) or that holds, between whitespace, an optional sign and decimal
  digits before or after a point, any digits after the point being zeros (so `".0"` and `"-.0"` read
  as 0). Every other parameter reads as `None`, and strict equality with
  `None` matches no record. `Number` also gives an integer for some parameters that read as `None`
  here (see `NumberParse.ParseId` under "Left out").
- `toLowerCase` is ASCII lower-casing (`Text.Lower`). `trim` and the regular expression's `\s` both
  use the ECMAScript whitespace set (`Text.IsSpace`).

Three facts about the server shape the model:

- Create checks its body. It answers 400 when `inputText` or `operation` is missing or falsy.
- Ids come from a millisecond clock, so two creates can share one. The shallow merge in update
  also lets a body that carries `id` overwrite it. `Analyses.SameMillisecondCreates` and
  `Analyses.UpdateCanRenameId` exhibit both.
- The only data routes are under `/api/analyses`.

## Model

| member | source | states |
|---|---|---|
| Text.TrimEmptyIffBlank | server.js:37 | `text.trim()` is empty exactly when the text is empty or consists only of whitespace |
| Text.TrimStart | server.js:37 | trimming the front leaves a suffix that does not start with whitespace, after dropping only whitespace |
| Text.TrimEnd | server.js:37 | trimming the back leaves a prefix that does not end with whitespace, after dropping only whitespace |
| Text.TrimHasNoOuterWhitespace | server.js:37 | the trimmed text is empty or neither starts nor ends with whitespace |
| Text.TrimIsTextBetweenWhitespace | server.js:37 | the trimmed text occurs in the original right after the leading whitespace, with only whitespace before and after it |
| Text.TrimmedCharsComeFromOriginal | server.js:37 | each character of the trimmed text is the original's character at the same offset past the leading whitespace |
| Text.TrimUntrimmed | server.js:37 | a text that starts and ends with a non-space is its own trim |
| Text.Lower | server.js:74 | lower-casing keeps the length and maps each character on its own: capitals to small letters, everything else unchanged |
| Text.LowerIsLowerCase | server.js:74 | lower-casing leaves no capital letter and is idempotent |
| Text.LowerOfLowerCase | server.js:74 | a text with no capital letter is its own lower case |
| Text.LowerAppend | server.js:74 | lower-casing a concatenation lower-cases each part |
| Text.ContainsBounds | server.js:76-83 | `includes("")` holds for every text, and no word longer than the text occurs in it |
| Text.ContainsInContext | server.js:76-83 | a substring found by `includes` in part of a text is found in the whole text |
| Text.IndexOf | server.js:61-62 | the position of the first occurrence of an element: it holds that element and no earlier position does |
| Text.IndexOfUnique | server.js:61-62 | a position holding an element with none of it before is the position of the first occurrence |
| NumberParse.ParseId | server.js:290 | a blank path parameter reads as 0; a parameter with no digit denotes an integer only when it is blank |
| NumberParse.ParseDecimalString | frontend/src/pages/Dashboard.jsx:103-109 | the id the front end writes into the delete URL is read back by the server as the same integer |
| NumberParse.NatStringValue | server.js:290 | the digits of a natural number read back as that number |
| NumberParse.DecimalString | frontend/src/pages/Dashboard.jsx:103-109 | `${id}` is non-empty, starts with `-` exactly for a negative id, and is otherwise decimal digits |
| Classifier.Classify | server.js:73-85 | `classify` returns one of "bug report", "praise", "complaint", "other" |
| Classifier.ClassifyIgnoresCase | server.js:74 | two texts that differ only in the case of letters get the same label |
| Classifier.KeywordForcesLabel | server.js:76-83 | a keyword in any case, anywhere in the text, forces at least its own label's priority: error/bug beat great/love, which beat refund/angry/upset (`ClassifyIsStrongestKeyword` gives the upper bound) |
| Classifier.ClassifyMonotone | server.js:76-83 | adding text around a message never lowers the priority of its label |
| Classifier.ClassifyOtherIffNoKeyword | server.js:75-84 | the label is "other" exactly when none of the seven keywords occurs in the lower-cased text |
| Classifier.MentionsInContext | server.js:76-83 | a keyword found in part of a text is found in the whole text after lower-casing |
| Classifier.ClassifyIsStrongestKeyword | server.js:75-84 | the label is that of the strongest keyword present: no present keyword outranks it, and a label other than "other" belongs to a keyword that is present |
| Summarizer.FindBoundary | server.js:53 | finds the first place where the separator `(?<=[.!?])\s+` matches, or reports that it matches nowhere |
| Summarizer.SpaceRunEnd | server.js:53 | the greedy `\s+` consumes the whole whitespace run and stops at a non-space or at the end |
| Summarizer.Sentences | server.js:53 | the split pieces contain no separator; every piece but the last ends with `.`, `!` or `?`; no piece but the first starts with whitespace; a text without a separator is one piece, itself (with `Separators` the pieces give the text back) |
| Summarizer.Summary | server.js:52-55 | the summary is never longer than the text, and a text with no sentence boundary is returned unchanged (`SummaryIdempotent` states its sentences and its single-space separators) |
| Summarizer.TwoSentencesFit | server.js:53-54 | the first two pieces joined with one space fit within the text |
| Summarizer.Separators | server.js:53 | the whitespace runs the split consumed, one fewer than the pieces, each non-empty whitespace; putting them back between the pieces gives the text back |
| Summarizer.SingleSpaces | server.js:54 | the separators of `join(" ")`: the requested number of single spaces |
| Summarizer.JoinWithSpace | server.js:54 | `join(" ")` puts one space between consecutive pieces |
| Summarizer.Take | server.js:54 | `slice(0, n)` keeps the first `n` elements, or all when there are fewer |
| Summarizer.JoinSentences | server.js:53-54 | joining the split pieces with single spaces gives back any text whose separators are single spaces |
| Summarizer.SentencesOfJoin | server.js:53-54 | splitting the single-space join of well-formed pieces gives back the pieces |
| Summarizer.SentencesOfInterleave | server.js:53 | splitting well-formed pieces read back with any whitespace separators gives back the pieces and the separators, so the split of a text is determined |
| Summarizer.InterleaveStep | server.js:53 | once the rest of a text splits back into its pieces and separators, so does the text with one more sentence and separator in front |
| Summarizer.SplitStep | server.js:53 | splitting a sentence, a whitespace run and a text not starting with whitespace takes off exactly that sentence and that run |
| Summarizer.SplitAfterSentence | server.js:53 | after one whole sentence followed by a whitespace run and a non-space, the separator matches there and consumes exactly that run |
| Summarizer.WellFormedTail | server.js:53 | the pieces after the first still form a well-formed split whose reassembly starts with a non-space; the first piece is one whole sentence |
| Summarizer.SummaryOfShortText | server.js:52-55 | a single-spaced text of at most two sentences is its own summary |
| Summarizer.SummaryIdempotent | server.js:52-55 | the summary splits into exactly the first two sentences of the text (at most two), separated by one single space whatever whitespace stood between them in the text, and summarising a summary changes nothing |
| KeywordList.Unique | server.js:61 | `[...new Set(xs)]` has no duplicates and holds exactly the elements of `xs` |
| KeywordList.UniqueKeepsFirstOccurrenceOrder | server.js:61 | the set lists elements in the order of their first occurrence in the input |
| KeywordList.PrefixOfUnique | server.js:61-62 | the first `m` elements of the set are distinct elements of the input, and all of them when `m` is the whole set |
| KeywordList.LowerAll | server.js:61 | `map(toLowerCase)` keeps the length and lower-cases each noun in place |
| KeywordList.Keywords | server.js:58-62 | the keywords are the first of the distinct lower-cased nouns in first-occurrence order, as many as there are but at most 10: pairwise distinct, all lower case, each the lower case of some noun, and every lower-cased noun when fewer than 10 |
| KeywordList.KeywordsInFirstOccurrenceOrder | server.js:61-62 | keywords keep the first-occurrence order of the lower-cased noun list |
| KeywordList.KeywordsAreTheFirstDistinct | server.js:61-62 | a lower-cased noun that was cut off first appears after every kept keyword, so the ten kept are the first ten |
| KeywordList.KeywordsMergeCaseVariants | server.js:61 | nouns that differ only in case give a single keyword |
| Nlp.RunNlpOperation | server.js:36-97 | a falsy or whitespace-only text fails with "No text provided" whatever the operation; a truthy non-string text fails at `trim`; otherwise the call succeeds exactly for the six operation names and otherwise fails with the unknown-operation error |
| Nlp.Dispatch | server.js:41-97 | the `switch` succeeds exactly on the six handled names and throws the unknown-operation error on any other value (the result of each name is stated by the six lemmas below) |
| Nlp.DeterministicOperations | server.js:52-93 | `summary`, `classify` and `chat` give the same result whatever the third-party analysers return |
| Nlp.GuardPassesText | server.js:37-41 | a non-blank string text passes the guard and reaches the `switch` unchanged |
| Nlp.SentimentResult | server.js:42-50 | `sentiment` answers the library's score, comparative ratio and positive and negative words |
| Nlp.SummaryResult | server.js:52-56 | `summary` answers `{ summary }` holding the summary of the text |
| Nlp.KeywordsResult | server.js:58-63 | `keywords` answers `{ keywords }` holding the keyword list of the library's nouns |
| Nlp.EntitiesResult | server.js:65-71 | `entities` answers the library's people, places and organisations |
| Nlp.ClassifyResult | server.js:73-85 | `classify` answers `{ label }` holding the classifier's label |
| Nlp.ChatResult | server.js:87-93 | `chat` answers `{ reply }` holding the fixed placeholder reply |
| Nlp.OperationNameIsTruthy | server.js:263 | every operation name is a non-empty string, so `!operation` is false for it |
| Nlp.ChatReplyIsConstant | server.js:87-93 | `chat` succeeds and gives the same reply for every non-blank text |
| Analyses.ListAnalyses | server.js:255-257 | GET answers 200 with every record, in insertion order, and leaves the store unchanged |
| Analyses.NewAnalysis | server.js:272-278 | the new record has exactly the keys id, inputText, operation, result and createdAt, with the clock's id |
| Analyses.Accept | server.js:280-281 | the push grows the store by one record at the end, leaves every earlier record alone, and answers 201 with that record |
| Analyses.CreateAnalysis | server.js:260-286 | a missing or falsy field gives 400 and an operation that throws gives 500, both with the store unchanged; 201 holds exactly when the store grows by one, with earlier records untouched and the new record last |
| Analyses.CreateAppendsRecord | server.js:262-281 | a create succeeds exactly when both fields are truthy and the operation succeeds; the appended record carries the clock's id, the request's fields, the result and the timestamp |
| Analyses.CreateStoresResult | server.js:262-281 | a create whose operation succeeds answers 201 and stores that operation's result in the new record |
| Analyses.ClassifyCreateStoresLabel | server.js:262-281 | a create of a non-blank text with `classify` answers 201 and stores `{ label }` with the classifier's label |
| Analyses.ListShowsCreatedLast | server.js:255-281 | after a create whose body has a non-blank text and one of the six operation names, listing shows the old records in order and then the record the create answered |
| Analyses.FindFirst | server.js:291 | `findIndex` returns the first position whose record has a numeric id equal to the parameter, or none when no record has it |
| Analyses.IdMatchIsStrict | server.js:291 | `a.id === id` converts nothing: a record without an `id` or with a non-numeric one matches no id, and a record matches at most one id |
| Analyses.Merge | server.js:294 | in `{ ...record, ...body }`, body keys take the body's values and every other key keeps the record's value |
| Analyses.UpdateAnalysis | server.js:289-296 | a non-numeric id or an id no record has gives 404 with the store unchanged; otherwise only the first record with the id is replaced by the merge, the store keeps its length, and the merged record is answered |
| Analyses.UpdateById | server.js:291-295 | once the parameter reads as an id: 404 with the store unchanged exactly when no record has it; otherwise the first record with it is merged with the body and answered |
| Analyses.UpdateAtFirstMatch | server.js:291-294 | the update writes the merge back at the first position holding the id |
| Analyses.UpdateMergesFirstMatch | server.js:291-295 | a successful update changes only the first matching position; within it, body keys win and other keys keep their old values |
| Analyses.MergeAt | server.js:294-295 | writing the merge back at one position changes no other position; at that position body keys win and other keys keep their values |
| Analyses.UpdateSkipsLaterDuplicates | server.js:291 | when two records share an id, the later one is untouched by an update |
| Analyses.UpdateCanRenameId | server.js:294 | a body carrying `id` overwrites the record's id, after which the old id, written in decimal (`DecimalString`), finds nothing (404) |
| Analyses.RemoveId | server.js:301 | the filter leaves no record with the id and keeps exactly the records without it |
| Analyses.DeleteAnalysis | server.js:299-303 | delete always answers 204 with no body; afterwards no record has the id and every other record remains; a non-numeric id changes nothing |
| Analyses.RemoveIdDistributes | server.js:301 | filtering a concatenation filters each part, so surviving records keep their relative order |
| Analyses.RemoveIdCount | server.js:301 | delete shrinks the store by exactly the number of records carrying the id |
| Analyses.RemoveAbsentId | server.js:301 | deleting an id no record has leaves the store equal to what it was |
| Analyses.DeleteIdempotent | server.js:299-303 | a second delete of the same id answers 204 again and leaves the store as the first delete left it |
| Analyses.SameMillisecondCreates | server.js:270-303 | two creates of a well-formed body in one millisecond store two records under one id; an update reaches only the first, and a delete removes both |
| Analyses.SharedIdUpdateAndDelete | server.js:289-303 | with two records under the id a parameter names, an update leaves the second alone and a delete removes both |
| Analyses.DeleteEveryMatch | server.js:299-302 | when every record carries the id a parameter names, a delete empties the store |
| Analyses.RemoveAllMatching | server.js:301 | when every record carries the id, the filter leaves nothing |
| Profile.FirstValue | server.js:234-235 | the shown value is `null` or truthy; when not `null`, it is the `value` of the first element of the list; a first element, of an array or of an object's `"0"` key, with a truthy `value` is shown as that value |
| Json.FalsyValues | server.js:234-235 | the falsy JSON values are exactly `null`, `false`, `0` and the empty string |
| Profile.FirstElement | server.js:234-235 | `?.[0]` gives something only for an array, object or string; on an array it is the first element, and nothing exactly when the array is empty |
| Profile.ValueProperty | server.js:234-235 | `?.value` gives something exactly for an object with a `value` key, and then that key's value |
| Profile.GetProfile | server.js:228-237 | 401 `{error: "Not authenticated"}` exactly when there is no user; otherwise 200 with `id` and `displayName` copied when the profile has them, and `email` and `photo` always present, each taken from the first element of its list |
| Profile.MissingListsShowNull | server.js:234-235 | a profile without `emails` and `photos` shows `null` for both |
| Profile.EmptyAddressShowsNull | server.js:234 | an address whose value is the empty string is shown as `null` |

## Left out

- Passport strategies, the OAuth redirects and callbacks, cookie-session, CORS, body parsing, the home page, `/logout`, `listen` and the export (server.js:100-223, 242-247, 305-319). These are library wiring with no logic of their own.
- Sentiment scoring and compromise's noun, people, place and organisation extraction. They are functions held by `Nlp.Analyzer`, and the model only places their outputs into the result object. The floating-point `comparative` score stays an opaque JSON value.
- Nlp.Analyzer: the analysers are total functions, assumed never to throw. In the server, a library failure in `sentiment`, `keywords` or `entities` is caught and answered with 500, where the model answers 201. The success conditions of `Nlp.RunNlpOperation`, `Analyses.CreateAppendsRecord` and `Analyses.ListShowsCreatedLast` rest on this assumption.
- The clock. `Date.now()` and `toISOString()` are the parameters `now` and `createdAt`.
- Concurrency. Two requests interleaving across the `await` in create is not modelled; each handler runs as one atomic step.
- `console.error` logging on the 500 path.
- The React front end and the test files. The front end appears only in `NumberParse.DecimalString` and `NumberParse.ParseDecimalString`, which state how it builds the delete URL.
- JSON numbers that are not integers. Request bodies that are arrays rather than objects. The key order of serialised objects.
- NumberParse.ParseId: returns `None` for exponent forms (`"1e3"`) and for `0x`/`0o`/`0b` literals, which `Number` reads as integers. It also returns `None` for a decimal fraction that `Number` rounds to an integer (`"1.0000000000000001"` is 1 to `Number`), so PUT and DELETE with such a parameter reach a record in the server and none in the model. It ignores the rounding of integers beyond 2^53. The model has no floating point, which all three would need.
- Text.Lower: lower-cases ASCII letters only, where `toLowerCase` applies full Unicode case mapping.
- Strings are sequences of Unicode code points, where JavaScript indexes UTF-16 code units. This affects only `Profile.FirstElement` on a string whose first character lies outside the Basic Multilingual Plane, and the shown result is `null` either way.

=== FILE: analyses.dfy ===
/** The in-memory `analyses` array and its four routes, each as a pure function from the store
    and the request to the response and the new store. */
module Analyses {
  import opened Wrappers
  import opened Json
  import opened Http
  import opened Nlp
  import NumberParse
  import Text
  import Classifier

  /** A stored analysis; `"id"` is an ordinary key that a later update may overwrite. */
  type Record = Object

  type Store = seq<Record>

  /** What a handler answers and the store it leaves behind. */
  datatype Handled = Handled(response: Response, store: Store)

  /** `a.id === id` for an id that is a number: only a numeric `id` of the same value matches. */
  predicate HasId(r: Record, id: int) {
    "id" in r && r["id"] == Num(id)
  }

  /** Strict equality makes no conversion: a record without an `id`, or whose `id` is not a number
      (the string "5", say), matches no id, and a record matches at most one id. */
  lemma IdMatchIsStrict(r: Record, id: int, other: int)
    ensures "id" !in r ==> !HasId(r, id)
    ensures "id" in r && !r["id"].Num? ==> !HasId(r, id)
    ensures HasId(r, id) && HasId(r, other) ==> id == other
  {
  }

  /** GET /api/analyses */
  function ListAnalyses(store: Store): (h: Handled)
    ensures h.store == store
    ensures h.response.status == 200 && h.response.payload.JsonBody? && h.response.payload.value.Arr?
    ensures |h.response.payload.value.items| == |store|
    ensures forall i | 0 <= i < |store| :: h.response.payload.value.items[i] == Obj(store[i])
  {
    Handled(Response(200, JsonBody(Arr(seq(|store|, i requires 0 <= i < |store| => Obj(store[i]))))), store)
  }

  /** The record a successful create appends. */
  function NewAnalysis(inputText: Value, operation: Value, result: Value, now: int, createdAt: string): (r: Record)
    ensures r.Keys == {"id", "inputText", "operation", "result", "createdAt"}
    ensures HasId(r, now)
    ensures r["inputText"] == inputText && r["operation"] == operation
    ensures r["result"] == result && r["createdAt"] == Str(createdAt)
  {
    map["id" := Num(now), "inputText" := inputText, "operation" := operation,
        "result" := result, "createdAt" := Str(createdAt)]
  }

  /** `analyses.push(record)` answered with 201 and the record. */
  function Accept(store: Store, record: Record): (h: Handled)
    ensures |h.store| == |store| + 1 && h.store[..|store|] == store && h.store[|store|] == record
    ensures h.response == Response(201, JsonBody(Obj(record)))
  {
    var store' := store + [record];
    assert store'[..|store|] == store;
    Handled(Response(201, JsonBody(Obj(record))), store')
  }

  const MissingFields: string := "inputText and operation are required"

  /** POST /api/analyses. `now` is `Date.now()` and `createdAt` the ISO timestamp, both read after
      the operation has run; neither is assumed unique. */
  function CreateAnalysis(store: Store, body: Object, nlp: Analyzer, now: int, createdAt: string): (h: Handled)
    ensures !(Present(body, "inputText") && Present(body, "operation")) ==>
      h == Handled(Response(400, ErrorBody(MissingFields)), store)
    ensures (Present(body, "inputText") && Present(body, "operation")
             && RunNlpOperation(body["inputText"], body["operation"], nlp).Failure?) ==>
      h == Handled(Response(500, ErrorBody("Failed to analyze text")), store)
    ensures h.response.status == 201 <==> |h.store| == |store| + 1
    ensures h.response.status == 201 ==>
      && h.store[..|store|] == store
      && h.response.payload == JsonBody(Obj(h.store[|store|]))
      && RunNlpOperation(body["inputText"], body["operation"], nlp).Success?
      && h.store[|store|] == NewAnalysis(body["inputText"], body["operation"],
                               RunNlpOperation(body["inputText"], body["operation"], nlp).value, now, createdAt)
    ensures h.response.status in {201, 400, 500}
  {
    if !Present(body, "inputText") || !Present(body, "operation") then
      Handled(Response(400, ErrorBody(MissingFields)), store)
    else
      var inputText, operation := body["inputText"], body["operation"];
      var outcome := RunNlpOperation(inputText, operation, nlp);
      if outcome.Failure? then
        Handled(Response(500, ErrorBody("Failed to analyze text")), store)
      else
        Accept(store, NewAnalysis(inputText, operation, outcome.value, now, createdAt))
  }

  /** `analyses.findIndex((a) => a.id === id)`, with `None` for -1. */
  function FindFirst(store: Store, id: int): (r: Option<nat>)
    ensures r.Some? ==> r.value < |store| && HasId(store[r.value], id)
    ensures forall i | 0 <= i < |store| && (r.None? || i < r.value) :: !HasId(store[i], id)
  {
    if store == [] then None
    else if HasId(store[0], id) then Some(0)
    else
      match FindFirst(store[1..], id)
      case None => None
      case Some(k) => Some(k + 1)
  }

  /** `{ ...record, ...body }`: every body key overwrites, every other key is kept. */
  function Merge(record: Record, body: Object): (merged: Record)
    ensures merged.Keys == record.Keys + body.Keys
    ensures forall k | k in body :: merged[k] == body[k]
    ensures forall k | k in record && k !in body :: merged[k] == record[k]
  {
    record + body
  }

  /** The update once the parameter has been read as the integer `id`: the first record holding it
      is merged with the body, and no record holding it answers 404. */
  function UpdateById(store: Store, id: int, body: Object): (h: Handled)
    ensures |h.store| == |store|
    ensures h.response.status in {200, 404}
    ensures h.response.status == 404 <==> forall i | 0 <= i < |store| :: !HasId(store[i], id)
    ensures h.response.status == 404 ==> h == Handled(Response(404, ErrorBody("Not found")), store)
    ensures h.response.status == 200 ==>
      exists k | 0 <= k < |store| ::
        && HasId(store[k], id)
        && (forall i | 0 <= i < k :: !HasId(store[i], id))
        && h.store == store[k := Merge(store[k], body)]
        && h.response.payload == JsonBody(Obj(h.store[k]))
  {
    match FindFirst(store, id)
    case None => Handled(Response(404, ErrorBody("Not found")), store)
    case Some(k) =>
      var store' := store[k := Merge(store[k], body)];
      Handled(Response(200, JsonBody(Obj(store'[k]))), store')
  }

  /** PUT /api/analyses/:id */
  function UpdateAnalysis(store: Store, idParam: string, body: Object): (h: Handled)
    ensures |h.store| == |store|
    ensures h.response.status in {200, 404}
    ensures h.response.status == 404 <==>
      NumberParse.ParseId(idParam).None? || forall i | 0 <= i < |store| :: !HasId(store[i], NumberParse.ParseId(idParam).value)
    ensures h.response.status == 404 ==> h == Handled(Response(404, ErrorBody("Not found")), store)
    ensures h.response.status == 200 ==>
      exists k | 0 <= k < |store| ::
        && HasId(store[k], NumberParse.ParseId(idParam).value)
        && (forall i | 0 <= i < k :: !HasId(store[i], NumberParse.ParseId(idParam).value))
        && h.store == store[k := Merge(store[k], body)]
        && h.response.payload == JsonBody(Obj(h.store[k]))
  {
    match NumberParse.ParseId(idParam)
    case None => Handled(Response(404, ErrorBody("Not found")), store)
    case Some(id) => UpdateById(store, id, body)
  }

  /** `analyses.filter((a) => a.id !== id)`. */
  function RemoveId(store: Store, id: int): (r: Store)
    ensures |r| <= |store|
    ensures forall i | 0 <= i < |r| :: !HasId(r[i], id)
    ensures forall x :: x in r <==> x in store && !HasId(x, id)
  {
    if store == [] then []
    else if HasId(store[0], id) then RemoveId(store[1..], id)
    else [store[0]] + RemoveId(store[1..], id)
  }

  /** DELETE /api/analyses/:id. A parameter that is not an integer matches nothing. */
  function DeleteAnalysis(store: Store, idParam: string): (h: Handled)
    ensures h.response == Response(204, NoContent)
    ensures NumberParse.ParseId(idParam).None? ==> h.store == store
    ensures NumberParse.ParseId(idParam).Some? ==>
      && (forall i | 0 <= i < |h.store| :: !HasId(h.store[i], NumberParse.ParseId(idParam).value))
      && (forall x :: x in h.store <==> x in store && !HasId(x, NumberParse.ParseId(idParam).value))
  {
    match NumberParse.ParseId(idParam)
    case None => Handled(Response(204, NoContent), store)
    case Some(id) => Handled(Response(204, NoContent), RemoveId(store, id))
  }

  /** A create succeeds exactly when both fields are truthy and the operation does not throw; the
      record it appends carries the clock's id, the request's fields and the operation's result. */
  lemma {:induction false} CreateAppendsRecord(store: Store, body: Object, nlp: Analyzer, now: int, createdAt: string)
    ensures var h := CreateAnalysis(store, body, nlp, now, createdAt);
      h.response.status == 201 <==>
        Present(body, "inputText") && Present(body, "operation")
        && RunNlpOperation(body["inputText"], body["operation"], nlp).Success?
    ensures var h := CreateAnalysis(store, body, nlp, now, createdAt);
      h.response.status == 201 ==>
        var record := h.store[|store|];
        && record.Keys == {"id", "inputText", "operation", "result", "createdAt"}
        && HasId(record, now)
        && record["inputText"] == body["inputText"]
        && record["operation"] == body["operation"]
        && record["result"] == RunNlpOperation(body["inputText"], body["operation"], nlp).value
        && record["createdAt"] == Str(createdAt)
  {
  }

  /** A request body that create accepts: a non-blank string text and one of the six operation names. */
  predicate WellFormedRequest(body: Object) {
    && "inputText" in body && body["inputText"].Str? && !Text.IsBlank(body["inputText"].s)
    && "operation" in body && IsOperation(body["operation"])
  }

  /** A create with a non-blank text and one of the six operation names stores the operation's own
      result; for `classify` that is `{ label }` with the classifier's label. */
  lemma {:induction false} ClassifyCreateStoresLabel(store: Store, s: string, nlp: Analyzer, now: int, createdAt: string)
    requires !Text.IsBlank(s)
    ensures var h := CreateAnalysis(store, map["inputText" := Str(s), "operation" := Str("classify")], nlp, now, createdAt);
      && h.response.status == 201
      && h.store[|store|]["result"] == Obj(map["label" := Str(Classifier.Classify(s))])
  {
    var body: Object := map["inputText" := Str(s), "operation" := Str("classify")];
    assert body["inputText"] == Str(s) && body["operation"] == Str("classify");
    ClassifyResult(s, nlp);
    CreateStoresResult(store, body, nlp, now, createdAt, Obj(map["label" := Str(Classifier.Classify(s))]));
  }

  /** A create whose operation succeeds answers 201 and stores that operation's result. */
  lemma {:induction false} CreateStoresResult(store: Store, body: Object, nlp: Analyzer, now: int, createdAt: string, result: Value)
    requires "inputText" in body && "operation" in body
    requires RunNlpOperation(body["inputText"], body["operation"], nlp) == Success(result)
    ensures var h := CreateAnalysis(store, body, nlp, now, createdAt);
      h.response.status == 201 && h.store[|store|]["result"] == result
  {
    assert !NoTextGiven(body["inputText"]) && IsOperation(body["operation"]);
    OperationNameIsTruthy(body["operation"]);
  }

  /** After a successful create, listing shows the earlier records in their old order followed by the new one. */
  lemma {:induction false} ListShowsCreatedLast(store: Store, body: Object, nlp: Analyzer, now: int, createdAt: string)
    requires WellFormedRequest(body)
    ensures var h := CreateAnalysis(store, body, nlp, now, createdAt);
      var items := ListAnalyses(h.store).response.payload.value.items;
      && |items| == |store| + 1
      && (forall i | 0 <= i < |store| :: items[i] == Obj(store[i]))
      && h.response.payload == JsonBody(items[|store|])
  {
    CreateAppendsRecord(store, body, nlp, now, createdAt);
    var h := CreateAnalysis(store, body, nlp, now, createdAt);
    assert forall i | 0 <= i < |store| :: h.store[i] == store[i] by {
      assert h.store[..|store|] == store;
    }
  }

  /** A successful update changes one record: the first with the id. Within it, body keys take the
      body's values and every other key keeps its old value; no other position changes. */
  lemma {:induction false} UpdateMergesFirstMatch(store: Store, idParam: string, body: Object)
    requires UpdateAnalysis(store, idParam, body).response.status == 200
    ensures var h := UpdateAnalysis(store, idParam, body);
      var id := NumberParse.ParseId(idParam).value;
      exists k | 0 <= k < |store| ::
        && HasId(store[k], id)
        && (forall i | 0 <= i < |store| && i != k :: h.store[i] == store[i])
        && (forall i | 0 <= i < k :: !HasId(store[i], id))
        && h.store[k].Keys == store[k].Keys + body.Keys
        && (forall key | key in body :: h.store[k][key] == body[key])
        && (forall key | key in store[k] && key !in body :: h.store[k][key] == store[k][key])
  {
    var id := NumberParse.ParseId(idParam).value;
    var k := FindFirst(store, id).value;
    UpdateAtFirstMatch(store, idParam, body, id, k);
    MergeAt(store, k, body);
  }

  /** Merging the body into position `k` changes that position only, key by key as `Merge` says. */
  lemma {:induction false} MergeAt(store: Store, k: nat, body: Object)
    requires k < |store|
    ensures var store' := store[k := Merge(store[k], body)];
      && |store'| == |store|
      && (forall i | 0 <= i < |store| && i != k :: store'[i] == store[i])
      && store'[k].Keys == store[k].Keys + body.Keys
      && (forall key | key in body :: store'[k][key] == body[key])
      && (forall key | key in store[k] && key !in body :: store'[k][key] == store[k][key])
  {
  }

  /** The store an update leaves when the parameter reads as `id` and `k` is the first position holding it. */
  lemma {:induction false} UpdateAtFirstMatch(store: Store, idParam: string, body: Object, id: int, k: nat)
    requires NumberParse.ParseId(idParam) == Some(id) && FindFirst(store, id) == Some(k)
    ensures UpdateAnalysis(store, idParam, body).store == store[k := Merge(store[k], body)]
  {
  }

  /** With two records under one id, an update reaches only the earlier one. */
  lemma {:induction false} UpdateSkipsLaterDuplicates(store: Store, idParam: string, body: Object, j: nat, k: nat)
    requires NumberParse.ParseId(idParam).Some?
    requires j < k < |store|
    requires HasId(store[j], NumberParse.ParseId(idParam).value)
    ensures UpdateAnalysis(store, idParam, body).store[k] == store[k]
  {
    var id := NumberParse.ParseId(idParam).value;
    var first := FindFirst(store, id);
    assert first.Some? && first.value <= j;
    UpdateAtFirstMatch(store, idParam, body, id, first.value);
  }

  /** An update whose body carries `id` renumbers the record, so its old id no longer finds it. */
  lemma {:induction false} UpdateCanRenameId(record: Record, n: int)
    requires HasId(record, n)
    ensures var param := NumberParse.DecimalString(n);
      var renamed := UpdateAnalysis([record], param, map["id" := Str("renamed")]);
      && renamed.response.status == 200
      && !HasId(renamed.store[0], n)
      && UpdateAnalysis(renamed.store, param, map[]).response.status == 404
  {
    var param := NumberParse.DecimalString(n);
    NumberParse.ParseDecimalString(n);
    var body: Object := map["id" := Str("renamed")];
    assert FindFirst([record], n) == Some(0);
    UpdateAtFirstMatch([record], param, body, n, 0);
    var merged := Merge(record, body);
    assert [record][0 := merged] == [merged];
    assert !HasId(merged, n);
    assert FindFirst([merged], n) == None;
  }

  /** How many records carry the id. */
  function CountId(store: Store, id: int): nat {
    if store == [] then 0 else (if HasId(store[0], id) then 1 else 0) + CountId(store[1..], id)
  }

  /** Deleting from a concatenation deletes from each part, so survivors keep their relative order. */
  lemma {:induction false} RemoveIdDistributes(a: Store, b: Store, id: int)
    ensures RemoveId(a + b, id) == RemoveId(a, id) + RemoveId(b, id)
  {
    if a == [] {
      assert a + b == b;
    } else {
      assert (a + b)[0] == a[0] && (a + b)[1..] == a[1..] + b;
      RemoveIdDistributes(a[1..], b, id);
    }
  }

  /** Delete removes exactly the matching records: every one of them, and nothing else. */
  lemma {:induction false} RemoveIdCount(store: Store, id: int)
    ensures |RemoveId(store, id)| == |store| - CountId(store, id)
  {
    if store != [] {
      RemoveIdCount(store[1..], id);
    }
  }

  /** With no record under the id, delete leaves the store as it was. */
  lemma {:induction false} RemoveAbsentId(store: Store, id: int)
    requires forall i | 0 <= i < |store| :: !HasId(store[i], id)
    ensures RemoveId(store, id) == store
  {
    if store != [] {
      RemoveAbsentId(store[1..], id);
    }
  }

  /** Deleting the same id twice leaves the store as the first delete left it; both answer 204. */
  lemma {:induction false} DeleteIdempotent(store: Store, idParam: string)
    ensures var once := DeleteAnalysis(store, idParam);
      && DeleteAnalysis(once.store, idParam) == once
  {
    var once := DeleteAnalysis(store, idParam);
    if NumberParse.ParseId(idParam).Some? {
      RemoveAbsentId(once.store, NumberParse.ParseId(idParam).value);
    }
  }

  /** Two creates in the same millisecond give two records under one id; an update then reaches the
      first only, while a delete removes both. */
  lemma {:induction false} SameMillisecondCreates(body: Object, nlp: Analyzer, now: int, createdAt: string, patch: Object)
    requires WellFormedRequest(body)
    ensures var one := CreateAnalysis([], body, nlp, now, createdAt).store;
      var two := CreateAnalysis(one, body, nlp, now, createdAt).store;
      && |two| == 2 && HasId(two[0], now) && HasId(two[1], now)
      && UpdateAnalysis(two, NumberParse.DecimalString(now), patch).store[1] == two[1]
      && DeleteAnalysis(two, NumberParse.DecimalString(now)).store == []
  {
    TwoCreatesShareId(body, nlp, now, createdAt);
    var one := CreateAnalysis([], body, nlp, now, createdAt).store;
    var two := CreateAnalysis(one, body, nlp, now, createdAt).store;
    NumberParse.ParseDecimalString(now);
    SharedIdUpdateAndDelete(two, NumberParse.DecimalString(now), now, patch);
  }

  /** Two records under the id a parameter names: an update leaves the second alone, a delete removes both. */
  lemma {:induction false} SharedIdUpdateAndDelete(two: Store, param: string, id: int, patch: Object)
    requires NumberParse.ParseId(param) == Some(id)
    requires |two| == 2 && HasId(two[0], id) && HasId(two[1], id)
    ensures UpdateAnalysis(two, param, patch).store[1] == two[1]
    ensures DeleteAnalysis(two, param).store == []
  {
    RemoveBothMatches(two, id);
    UpdateSkipsLaterDuplicates(two, param, patch, 0, 1);
  }

  /** When every record carries the id the parameter names, delete empties the store. */
  lemma {:induction false} DeleteEveryMatch(store: Store, param: string, id: int)
    requires NumberParse.ParseId(param) == Some(id)
    requires forall i | 0 <= i < |store| :: HasId(store[i], id)
    ensures DeleteAnalysis(store, param).store == []
  {
    RemoveAllMatching(store, id);
  }

  /** The first step of `SameMillisecondCreates`: two creates with the same clock reading store two
      records under the same id. */
  lemma {:induction false} TwoCreatesShareId(body: Object, nlp: Analyzer, now: int, createdAt: string)
    requires WellFormedRequest(body)
    ensures var one := CreateAnalysis([], body, nlp, now, createdAt).store;
      var two := CreateAnalysis(one, body, nlp, now, createdAt).store;
      |two| == 2 && HasId(two[0], now) && HasId(two[1], now)
  {
    CreateAppendsRecord([], body, nlp, now, createdAt);
    var one := CreateAnalysis([], body, nlp, now, createdAt).store;
    assert |one| == 1 && HasId(one[0], now);
    CreateAppendsRecord(one, body, nlp, now, createdAt);
    var two := CreateAnalysis(one, body, nlp, now, createdAt).store;
    assert |two| == 2 && two[..1] == one && HasId(two[1], now);
    assert two[0] == two[..1][0];
  }

  /** The two-record case of `RemoveAllMatching`, as `SharedIdUpdateAndDelete` uses it. */
  lemma {:induction false} RemoveBothMatches(two: Store, id: int)
    requires |two| == 2 && HasId(two[0], id) && HasId(two[1], id)
    ensures RemoveId(two, id) == []
  {
    RemoveAllMatching(two, id);
  }

  /** When every record carries the id, delete empties the store. */
  lemma {:induction false} RemoveAllMatching(store: Store, id: int)
    requires forall i | 0 <= i < |store| :: HasId(store[i], id)
    ensures RemoveId(store, id) == []
  {
    if store != [] {
      assert forall i | 0 <= i < |store| - 1 :: store[1..][i] == store[i + 1];
      RemoveAllMatching(store[1..], id);
    }
  }
}

=== FILE: classifier.dfy ===
/** The `classify` operation: a label chosen by prioritised keyword checks on the lower-cased text. */
module Classifier {
  import opened Text

  const BugWords: seq<string> := ["error", "bug"]
  const PraiseWords: seq<string> := ["great", "love"]
  const ComplaintWords: seq<string> := ["refund", "angry", "upset"]

  /** The seven keywords, strongest group first. */
  const AllKeywords: seq<string> := BugWords + PraiseWords + ComplaintWords

  const Labels: set<string> := {"bug report", "praise", "complaint", "other"}

  /** Some word of `words` occurs in `lower`. */
  predicate MentionsAny(lower: string, words: seq<string>) {
    exists k | 0 <= k < |words| :: Contains(lower, words[k])
  }

  /** The label `classify` returns for a text. */
  function Classify(text: string): (category: string)
    ensures category in Labels
  {
    var lower := Lower(text);
    if MentionsAny(lower, BugWords) then "bug report"
    else if MentionsAny(lower, PraiseWords) then "praise"
    else if MentionsAny(lower, ComplaintWords) then "complaint"
    else "other"
  }

  /** Priority of a label: the check that produces it runs before every check of lower rank. */
  function Rank(category: string): nat {
    if category == "bug report" then 3
    else if category == "praise" then 2
    else if category == "complaint" then 1
    else 0
  }

  /** The priority a keyword itself forces. */
  function WordRank(lowerWord: string): nat {
    if lowerWord in BugWords then 3
    else if lowerWord in PraiseWords then 2
    else if lowerWord in ComplaintWords then 1
    else 0
  }

  /** Texts that differ only in the case of ASCII letters get the same label. */
  lemma {:induction false} ClassifyIgnoresCase(a: string, b: string)
    requires |a| == |b|
    requires forall i | 0 <= i < |a| :: LowerChar(a[i]) == LowerChar(b[i])
    ensures Classify(a) == Classify(b)
  {
    assert Lower(a) == Lower(b);
  }

  /** Mentions found in a part of a text are found in the whole text. */
  lemma {:induction false} MentionsInContext(a: string, s: string, b: string, words: seq<string>)
    requires MentionsAny(Lower(s), words)
    ensures MentionsAny(Lower(a + s + b), words)
  {
    var k :| 0 <= k < |words| && Contains(Lower(s), words[k]);
    LowerAppend(a + s, b);
    LowerAppend(a, s);
    ContainsInContext(Lower(a), Lower(s), Lower(b), words[k]);
  }

  /** Adding text around a message can only raise the priority of its label. */
  lemma {:induction false} ClassifyMonotone(a: string, s: string, b: string)
    ensures Rank(Classify(s)) <= Rank(Classify(a + s + b))
  {
    if MentionsAny(Lower(s), BugWords) {
      MentionsInContext(a, s, b, BugWords);
    } else if MentionsAny(Lower(s), PraiseWords) {
      MentionsInContext(a, s, b, PraiseWords);
    } else if MentionsAny(Lower(s), ComplaintWords) {
      MentionsInContext(a, s, b, ComplaintWords);
    }
  }

  /** A keyword written in any case forces at least its own label's priority, wherever it appears. */
  lemma {:induction false} KeywordForcesLabel(a: string, w: string, b: string)
    ensures Rank(Classify(a + w + b)) >= WordRank(Lower(w))
  {
    var lw := Lower(w);
    if lw in BugWords || lw in PraiseWords || lw in ComplaintWords {
      assert OccursAt(lw, lw, 0);
      var words := if lw in BugWords then BugWords else if lw in PraiseWords then PraiseWords else ComplaintWords;
      var k :| 0 <= k < |words| && words[k] == lw;
      assert Contains(Lower(w), words[k]);
      MentionsInContext(a, w, b, words);
    }
  }

  /** "other" is returned exactly when none of the seven keywords occurs, in any case. */
  lemma {:induction false} ClassifyOtherIffNoKeyword(text: string)
    ensures Classify(text) == "other" <==>
      forall w | w in AllKeywords :: !Contains(Lower(text), w)
  {
    var all := AllKeywords;
    if Classify(text) != "other" {
      var words := if MentionsAny(Lower(text), BugWords) then BugWords
        else if MentionsAny(Lower(text), PraiseWords) then PraiseWords else ComplaintWords;
      var k :| 0 <= k < |words| && Contains(Lower(text), words[k]);
      assert words[k] in all;
    }
  }

  /** The label is the one of the strongest keyword present: no keyword present outranks it, and a
      label other than "other" is the label of a keyword that is present. */
  lemma {:induction false} ClassifyIsStrongestKeyword(text: string)
    ensures forall w | w in AllKeywords && Contains(Lower(text), w) :: WordRank(w) <= Rank(Classify(text))
    ensures Rank(Classify(text)) > 0 ==>
      exists w | w in AllKeywords :: Contains(Lower(text), w) && WordRank(w) == Rank(Classify(text))
  {
    var lower := Lower(text);
    forall w | w in AllKeywords && Contains(lower, w) ensures WordRank(w) <= Rank(Classify(text)) {
      var words := if w in BugWords then BugWords else if w in PraiseWords then PraiseWords else ComplaintWords;
      var k :| 0 <= k < |words| && words[k] == w;
      assert MentionsAny(lower, words);
    }
    if Rank(Classify(text)) > 0 {
      var words := if MentionsAny(lower, BugWords) then BugWords
        else if MentionsAny(lower, PraiseWords) then PraiseWords else ComplaintWords;
      var k :| 0 <= k < |words| && Contains(lower, words[k]);
      assert words[k] in AllKeywords && WordRank(words[k]) == Rank(Classify(text));
    }
  }
}

=== FILE: http.dfy ===
/** What a handler sends back: a status code and either a JSON body or nothing. */
module Http {
  import opened Json

  datatype Payload = JsonBody(value: Value) | NoContent

  datatype Response = Response(status: int, payload: Payload)

  /** The `{ error: message }` body every failing route sends. */
  function ErrorBody(message: string): Payload {
    JsonBody(Obj(map["error" := Str(message)]))
  }
}

=== FILE: json.dfy ===
/** JSON values as the server receives them in request bodies and sends them in responses. */
module Json {

  /** A JSON value. Numbers are integers only (record ids come from a millisecond clock).
      An object key that is absent stands for a property that is `undefined`. */
  datatype Value =
    | Null
    | Bool(b: bool)
    | Num(n: int)
    | Str(s: string)
    | Arr(items: seq<Value>)
    | Obj(fields: map<string, Value>)

  /** A JSON object: a request body, a stored record, a user profile. */
  type Object = map<string, Value>

  /** JavaScript truthiness of a JSON value: `null`, `false`, `0` and `""` are falsy. */
  predicate Truthy(v: Value) {
    match v
    case Null => false
    case Bool(b) => b
    case Num(n) => n != 0
    case Str(s) => |s| > 0
    case Arr(_) => true
    case Obj(_) => true
  }

  /** The falsy JSON values are exactly `null`, `false`, `0` and `""`; every array and object is truthy. */
  lemma FalsyValues(v: Value)
    ensures !Truthy(v) <==> v in {Null, Bool(false), Num(0), Str("")}
  {
  }

  /** Truthiness of a property read `o.key`: an absent key reads as `undefined`, which is falsy. */
  predicate Present(o: Object, key: string) {
    key in o && Truthy(o[key])
  }
}

=== FILE: keyword_list.dfy ===
/** The `keywords` post-processing: `[...new Set(nouns.map(n => n.toLowerCase()))].slice(0, 10)`.
    The noun list itself comes from a third-party tagger and is an input here. */
module KeywordList {
  import opened Text

  const MaxKeywords: nat := 10

  predicate NoDuplicates<T(==)>(xs: seq<T>) {
    forall i, j | 0 <= i < j < |xs| :: xs[i] != xs[j]
  }

  /** `[...new Set(xs)]`: the distinct elements in the order a `Set` first receives them. */
  function Unique<T(==)>(xs: seq<T>): (r: seq<T>)
    ensures NoDuplicates(r)
    ensures forall i | 0 <= i < |r| :: r[i] in xs
    ensures forall i | 0 <= i < |xs| :: xs[i] in r
    ensures |r| <= |xs|
  {
    if xs == [] then []
    else
      var r := Unique(xs[..|xs| - 1]);
      var x := xs[|xs| - 1];
      assert xs == xs[..|xs| - 1] + [x];
      if x in r then r else r + [x]
  }

  /** The set keeps the order in which elements first appear in the input. */
  lemma {:induction false} UniqueKeepsFirstOccurrenceOrder<T>(xs: seq<T>)
    ensures forall i, j | 0 <= i < j < |Unique(xs)| ::
      IndexOf(xs, Unique(xs)[i]) < IndexOf(xs, Unique(xs)[j])
  {
    if xs != [] {
      var prefix := xs[..|xs| - 1];
      var last := xs[|xs| - 1];
      var u := Unique(prefix);
      UniqueKeepsFirstOccurrenceOrder(prefix);
      forall y | y in prefix ensures IndexOf(xs, y) == IndexOf(prefix, y) {
        var k := IndexOf(prefix, y);
        assert xs[..k] == prefix[..k];
        IndexOfUnique(xs, y, k);
      }
      if last !in u {
        assert last !in xs[..|xs| - 1];
        IndexOfUnique(xs, last, |xs| - 1);
      }
    }
  }

  /** Each noun lower-cased, as `nouns.map((n) => n.toLowerCase())`. */
  function LowerAll(nouns: seq<string>): (lowered: seq<string>)
    ensures |lowered| == |nouns|
    ensures forall i | 0 <= i < |nouns| :: lowered[i] == Lower(nouns[i]) && IsLowerCase(lowered[i])
  {
    forall i | 0 <= i < |nouns| ensures IsLowerCase(Lower(nouns[i])) {
      LowerIsLowerCase(nouns[i]);
    }
    seq(|nouns|, i requires 0 <= i < |nouns| => Lower(nouns[i]))
  }

  /** The keyword list the `keywords` operation returns for a given noun list. */
  function Keywords(nouns: seq<string>): (keywords: seq<string>)
    ensures |keywords| <= MaxKeywords
    ensures NoDuplicates(keywords)
    ensures forall i | 0 <= i < |keywords| :: IsLowerCase(keywords[i])
    ensures forall i | 0 <= i < |keywords| :: exists j | 0 <= j < |nouns| :: keywords[i] == Lower(nouns[j])
    ensures |keywords| < MaxKeywords ==> forall j | 0 <= j < |nouns| :: Lower(nouns[j]) in keywords
    ensures var distinct := |Unique(LowerAll(nouns))|;
      |keywords| == if distinct <= MaxKeywords then distinct else MaxKeywords
    ensures keywords == Unique(LowerAll(nouns))[..|keywords|]
  {
    var lowered := LowerAll(nouns);
    var u := Unique(lowered);
    var m := if |u| <= MaxKeywords then |u| else MaxKeywords;
    var keywords := u[..m];
    PrefixOfUnique(lowered, m);
    forall i | 0 <= i < m
      ensures IsLowerCase(keywords[i])
      ensures exists j | 0 <= j < |nouns| :: keywords[i] == Lower(nouns[j])
    {
      var j :| 0 <= j < |lowered| && lowered[j] == keywords[i];
    }
    keywords
  }

  /** The first `m` elements of `[...new Set(xs)]` are distinct elements of `xs`, and all of them
      when `m` is the whole set. */
  lemma {:induction false} PrefixOfUnique<T>(xs: seq<T>, m: nat)
    requires m <= |Unique(xs)|
    ensures NoDuplicates(Unique(xs)[..m])
    ensures forall i | 0 <= i < m :: Unique(xs)[..m][i] in xs
    ensures m == |Unique(xs)| ==> forall j | 0 <= j < |xs| :: xs[j] in Unique(xs)[..m]
  {
    var u := Unique(xs);
    assert forall i | 0 <= i < m :: u[..m][i] == u[i];
    if m == |u| {
      assert u[..m] == u;
    }
  }

  /** The keywords keep the order in which their nouns first appear (counted after lower-casing). */
  lemma {:induction false} KeywordsInFirstOccurrenceOrder(nouns: seq<string>)
    ensures forall i, j | 0 <= i < j < |Keywords(nouns)| ::
      IndexOf(LowerAll(nouns), Keywords(nouns)[i]) < IndexOf(LowerAll(nouns), Keywords(nouns)[j])
  {
    var u := Unique(LowerAll(nouns));
    UniqueKeepsFirstOccurrenceOrder(LowerAll(nouns));
    assert forall i | 0 <= i < |Keywords(nouns)| :: Keywords(nouns)[i] == u[i];
  }

  /** `slice(0, 10)` keeps the first keywords: a lower-cased noun that was cut off first appears
      after every kept keyword. */
  lemma {:induction false} KeywordsAreTheFirstDistinct(nouns: seq<string>, j: nat)
    requires j < |nouns| && Lower(nouns[j]) !in Keywords(nouns)
    ensures forall i | 0 <= i < |Keywords(nouns)| ::
      IndexOf(LowerAll(nouns), Keywords(nouns)[i]) < IndexOf(LowerAll(nouns), Lower(nouns[j]))
  {
    var lowered := LowerAll(nouns);
    var u := Unique(lowered);
    var keywords := Keywords(nouns);
    assert lowered[j] in u;
    var p :| 0 <= p < |u| && u[p] == Lower(nouns[j]);
    assert forall i | 0 <= i < |keywords| :: keywords[i] == u[i];
    assert p >= |keywords|;
    UniqueKeepsFirstOccurrenceOrder(lowered);
  }

  /** Nouns that differ only in case yield one keyword. */
  lemma {:induction false} KeywordsMergeCaseVariants(a: string, b: string)
    requires Lower(a) == Lower(b)
    ensures Keywords([a, b]) == [Lower(a)]
  {
    assert LowerAll([a, b]) == [Lower(a), Lower(a)];
    assert LowerAll([a, b])[..1] == [Lower(a)];
  }
}

=== FILE: nlp.dfy ===
/** `runNlpOperation(text, operation)`: the guard on the text, the dispatch on the operation name,
    and the result object each operation builds. */
module Nlp {
  import opened Wrappers
  import opened Json
  import opened Text
  import Classifier
  import Summarizer
  import KeywordList

  /** What the sentiment library reports; `comparative` is a floating-point ratio and stays opaque. */
  datatype SentimentScore = SentimentScore(score: int, comparative: Value, positive: seq<string>, negative: seq<string>)

  /** The third-party analysers, each a function of the text it is given. */
  datatype Analyzer = Analyzer(
    sentiment: string -> SentimentScore,
    nouns: string -> seq<string>,
    people: string -> seq<string>,
    places: string -> seq<string>,
    organizations: string -> seq<string>)

  /** What `runNlpOperation` throws. */
  datatype NlpError =
    | NoText                            // Error("No text provided")
    | TrimNotAFunction                  // TypeError: the text is truthy but not a string
    | UnknownOperation(operation: Value) // Error(`Unknown operation: ${operation}`)

  const Operations: seq<string> := ["sentiment", "summary", "keywords", "entities", "classify", "chat"]

  const ChatReply: string :=
    "Thanks for your message! A more advanced version of this app could call a large language model here."

  /** One of the six names the `switch` handles (compared with `===`, so it must be a string). */
  predicate IsOperation(operation: Value) {
    operation.Str? && operation.s in Operations
  }

  /** Every operation name is a non-empty string, so `!operation` is false for it. */
  lemma OperationNameIsTruthy(operation: Value)
    requires IsOperation(operation)
    ensures Truthy(operation)
  {
    assert forall k | 0 <= k < |Operations| :: |Operations[k]| > 0;
  }

  /** A JSON array of strings. */
  function Strings(xs: seq<string>): Value {
    Arr(seq(|xs|, i requires 0 <= i < |xs| => Str(xs[i])))
  }

  /** The text guard rejects it: `!text || !text.trim()` for a string, `!text` for anything else. */
  predicate NoTextGiven(text: Value) {
    !Truthy(text) || (text.Str? && IsBlank(text.s))
  }

  /** `runNlpOperation` on a text that passed the guard. */
  function RunNlpOperation(text: Value, operation: Value, nlp: Analyzer): (r: Result<Value, NlpError>)
    ensures NoTextGiven(text) <==> r == Failure(NoText)
    ensures !NoTextGiven(text) && !text.Str? ==> r == Failure(TrimNotAFunction)
    ensures !NoTextGiven(text) && text.Str? ==> (r.Success? <==> IsOperation(operation))
    ensures !NoTextGiven(text) && text.Str? && !IsOperation(operation) ==> r == Failure(UnknownOperation(operation))
  {
    if !Truthy(text) then Failure(NoText)
    else if !text.Str? then Failure(TrimNotAFunction)
    else
      TrimEmptyIffBlank(text.s);
      if Trim(text.s) == [] then Failure(NoText) else Dispatch(text.s, operation, nlp)
  }

  /** The `switch (operation)` of `runNlpOperation`, reached once the text is known to be non-blank. */
  function Dispatch(s: string, operation: Value, nlp: Analyzer): (r: Result<Value, NlpError>)
    ensures r.Success? <==> IsOperation(operation)
    ensures r.Failure? ==> r.error == UnknownOperation(operation)
  {
    if operation == Str("sentiment") then
      var a := nlp.sentiment(s);
      Success(Obj(map[
        "score" := Num(a.score), "comparative" := a.comparative,
        "positive" := Strings(a.positive), "negative" := Strings(a.negative)]))
    else if operation == Str("summary") then
      Success(Obj(map["summary" := Str(Summarizer.Summary(s))]))
    else if operation == Str("keywords") then
      Success(Obj(map["keywords" := Strings(KeywordList.Keywords(nlp.nouns(s)))]))
    else if operation == Str("entities") then
      Success(Obj(map[
        "people" := Strings(nlp.people(s)), "places" := Strings(nlp.places(s)),
        "organizations" := Strings(nlp.organizations(s))]))
    else if operation == Str("classify") then
      Success(Obj(map["label" := Str(Classifier.Classify(s))]))
    else if operation == Str("chat") then
      Success(Obj(map["reply" := Str(ChatReply)]))
    else
      Failure(UnknownOperation(operation))
  }

  /** The operation names the deterministic lemmas below dispatch on differ from the names tested before them. */
  lemma OperationNamesDiffer()
    ensures Str("summary") != Str("sentiment")
    ensures Str("classify") != Str("sentiment") && Str("classify") != Str("summary")
    ensures Str("classify") != Str("keywords") && Str("classify") != Str("entities")
    ensures Str("chat") != Str("sentiment") && Str("chat") != Str("summary") && Str("chat") != Str("keywords")
    ensures Str("chat") != Str("entities") && Str("chat") != Str("classify")
    ensures Str("keywords") != Str("sentiment") && Str("keywords") != Str("summary")
    ensures Str("entities") != Str("sentiment") && Str("entities") != Str("summary") && Str("entities") != Str("keywords")
  {
    assert "summary"[1] != "sentiment"[1];
    assert "chat"[1] != "classify"[1];
    assert "keywords"[0] != "sentiment"[0] && "keywords"[0] != "summary"[0];
    assert "entities"[0] != "sentiment"[0] && "entities"[0] != "summary"[0] && "entities"[0] != "keywords"[0];
  }

  /** A non-blank string text passes the guard and goes straight to the `switch`. */
  lemma {:induction false} GuardPassesText(s: string, operation: Value, nlp: Analyzer)
    requires !IsBlank(s)
    ensures RunNlpOperation(Str(s), operation, nlp) == Dispatch(s, operation, nlp)
  {
    TrimEmptyIffBlank(s);
  }

  /** `sentiment` copies the library's score, comparative ratio and word lists. */
  lemma {:induction false} SentimentResult(s: string, nlp: Analyzer)
    requires !IsBlank(s)
    ensures var a := nlp.sentiment(s);
      RunNlpOperation(Str(s), Str("sentiment"), nlp) == Success(Obj(map[
        "score" := Num(a.score), "comparative" := a.comparative,
        "positive" := Strings(a.positive), "negative" := Strings(a.negative)]))
  {
    GuardPassesText(s, Str("sentiment"), nlp);
  }

  /** `summary` answers `{ summary }` with the first two sentences joined by one space. */
  lemma {:induction false} SummaryResult(s: string, nlp: Analyzer)
    requires !IsBlank(s)
    ensures RunNlpOperation(Str(s), Str("summary"), nlp) == Success(Obj(map["summary" := Str(Summarizer.Summary(s))]))
  {
    OperationNamesDiffer();
    GuardPassesText(s, Str("summary"), nlp);
  }

  /** `keywords` answers `{ keywords }` with the keyword list of the library's nouns. */
  lemma {:induction false} KeywordsResult(s: string, nlp: Analyzer)
    requires !IsBlank(s)
    ensures RunNlpOperation(Str(s), Str("keywords"), nlp) ==
      Success(Obj(map["keywords" := Strings(KeywordList.Keywords(nlp.nouns(s)))]))
  {
    OperationNamesDiffer();
    GuardPassesText(s, Str("keywords"), nlp);
  }

  /** `entities` answers the library's people, places and organisations. */
  lemma {:induction false} EntitiesResult(s: string, nlp: Analyzer)
    requires !IsBlank(s)
    ensures RunNlpOperation(Str(s), Str("entities"), nlp) == Success(Obj(map[
      "people" := Strings(nlp.people(s)), "places" := Strings(nlp.places(s)),
      "organizations" := Strings(nlp.organizations(s))]))
  {
    OperationNamesDiffer();
    GuardPassesText(s, Str("entities"), nlp);
  }

  /** `classify` answers `{ label }` with the classifier's label. */
  lemma {:induction false} ClassifyResult(s: string, nlp: Analyzer)
    requires !IsBlank(s)
    ensures RunNlpOperation(Str(s), Str("classify"), nlp) == Success(Obj(map["label" := Str(Classifier.Classify(s))]))
  {
    OperationNamesDiffer();
    GuardPassesText(s, Str("classify"), nlp);
  }

  /** `chat` answers `{ reply }` with the fixed placeholder reply. */
  lemma {:induction false} ChatResult(s: string, nlp: Analyzer)
    requires !IsBlank(s)
    ensures RunNlpOperation(Str(s), Str("chat"), nlp) == Success(Obj(map["reply" := Str(ChatReply)]))
  {
    OperationNamesDiffer();
    GuardPassesText(s, Str("chat"), nlp);
  }

  /** `summary`, `classify` and `chat` do not consult the third-party analysers. */
  lemma {:induction false} DeterministicOperations(text: Value, name: string, nlp1: Analyzer, nlp2: Analyzer)
    requires name in {"summary", "classify", "chat"}
    ensures RunNlpOperation(text, Str(name), nlp1) == RunNlpOperation(text, Str(name), nlp2)
  {
    OperationNamesDiffer();
  }

  /** `chat` answers the same placeholder reply whatever the (non-blank) text and the analysers. */
  lemma {:induction false} ChatReplyIsConstant(text1: string, text2: string, nlp1: Analyzer, nlp2: Analyzer)
    requires !IsBlank(text1) && !IsBlank(text2)
    ensures RunNlpOperation(Str(text1), Str("chat"), nlp1) == RunNlpOperation(Str(text2), Str("chat"), nlp2)
    ensures RunNlpOperation(Str(text1), Str("chat"), nlp1).Success?
  {
    OperationNamesDiffer();
    TrimEmptyIffBlank(text1);
    TrimEmptyIffBlank(text2);
  }
}

=== FILE: number_parse.dfy ===
/** JavaScript's `Number(string)` as far as it decides which record an id path parameter names,
    and `String(number)` for the integer ids the front end puts into request paths. */
module NumberParse {
  import opened Wrappers
  import opened Text

  predicate IsDigit(c: char) {
    '0' <= c <= '9'
  }

  predicate AllDigits(s: string) {
    forall i | 0 <= i < |s| :: IsDigit(s[i])
  }

  /** The value of a run of decimal digits, most significant first. */
  function DigitsValue(s: string): nat
    requires AllDigits(s)
  {
    if s == [] then 0 else 10 * DigitsValue(s[..|s| - 1]) + (s[|s| - 1] as int - '0' as int)
  }

  /** A decimal literal without sign or exponent (`12`, `12.`, `12.00`, `.0`), read as an integer.
      `None` when it is not such a literal or when its value has a non-zero fraction. */
  function UnsignedInteger(s: string): (r: Option<nat>)
    ensures r.Some? ==> exists i | 0 <= i < |s| :: IsDigit(s[i])
  {
    if '.' in s then
      var k := IndexOf(s, '.');
      var whole, fraction := s[..k], s[k + 1..];
      if AllDigits(whole) && AllDigits(fraction) && |whole| + |fraction| > 0
         && (forall i | 0 <= i < |fraction| :: fraction[i] == '0')
      then
        assert |whole| > 0 ==> IsDigit(s[0]);
        assert |whole| == 0 ==> IsDigit(s[k + 1]);
        Some(DigitsValue(whole))
      else
        None
    else if |s| > 0 && AllDigits(s) then
      assert IsDigit(s[0]);
      Some(DigitsValue(s))
    else
      None
  }

  /** A trimmed numeric literal with an optional sign, read as an integer. */
  function SignedInteger(t: string): (r: Option<int>)
    ensures r.Some? ==> t == [] || exists i | 0 <= i < |t| :: IsDigit(t[i])
  {
    if t == [] then
      Some(0)
    else if t[0] == '-' || t[0] == '+' then
      match UnsignedInteger(t[1..])
      case Some(n) =>
        assert exists i | 0 <= i < |t| - 1 :: IsDigit(t[1..][i]);
        if t[0] == '-' then Some(0 - n) else Some(n)
      case None => None
    else
      match UnsignedInteger(t)
      case Some(n) => Some(n)
      case None => None
  }

  lemma {:induction false} TrimKeepsNoDigits(s: string)
    ensures (forall i | 0 <= i < |s| :: !IsDigit(s[i])) ==> forall i | 0 <= i < |Trim(s)| :: !IsDigit(Trim(s)[i])
  {
    forall i | 0 <= i < |Trim(s)| ensures Trim(s)[i] == s[|s| - |TrimStart(s)| + i] {
      TrimmedCharsComeFromOriginal(s, i);
    }
  }

  /** `Number(param)` for a blank parameter or a decimal integer literal (a fraction of zeros allowed),
      and `None`, equal to no record id, for every other parameter. */
  function ParseId(param: string): (r: Option<int>)
    ensures IsBlank(param) ==> r == Some(0)
    ensures (forall i | 0 <= i < |param| :: !IsDigit(param[i])) ==> (r.Some? <==> IsBlank(param))
  {
    TrimEmptyIffBlank(param);
    var t := Trim(param);
    TrimKeepsNoDigits(param);
    SignedInteger(t)
  }

  function DigitChar(d: nat): (c: char)
    requires d < 10
    ensures IsDigit(c)
  {
    ('0' as int + d) as char
  }

  /** The decimal digits of `n` with no leading zero. */
  function NatString(n: nat): (s: string)
    ensures |s| > 0 && AllDigits(s)
  {
    if n < 10 then [DigitChar(n)] else NatString(n / 10) + [DigitChar(n % 10)]
  }

  /** `String(n)` (equivalently `${n}`) for an integer of the size a millisecond clock produces. */
  function DecimalString(n: int): (r: string)
    ensures |r| > 0 && (r[0] == '-' <==> n < 0)
    ensures AllDigits(if n < 0 then r[1..] else r)
  {
    if n < 0 then "-" + NatString(-n) else NatString(n)
  }

  lemma {:induction false} NatStringValue(n: nat)
    ensures DigitsValue(NatString(n)) == n
  {
    if n >= 10 {
      NatStringValue(n / 10);
      var s := NatString(n);
      assert s[..|s| - 1] == NatString(n / 10);
    }
  }

  lemma {:induction false} UnsignedIntegerOfDigits(s: string)
    requires |s| > 0 && AllDigits(s)
    ensures UnsignedInteger(s) == Some(DigitsValue(s))
  {
    assert '.' !in s by {
      forall i | 0 <= i < |s| ensures s[i] != '.' {
        assert IsDigit(s[i]);
      }
    }
  }

  /** The decimal form of an integer has no surrounding whitespace, so trimming keeps it whole. */
  lemma {:induction false} DecimalStringUntrimmed(n: int)
    ensures Trim(DecimalString(n)) == DecimalString(n)
  {
    var s := DecimalString(n);
    var digits := NatString(if n < 0 then -n else n);
    assert IsDigit(digits[0]) && IsDigit(digits[|digits| - 1]);
    assert s[|s| - 1] == digits[|digits| - 1];
    TrimUntrimmed(s);
  }

  /** Path round trip: an id the front end writes into `/api/analyses/${id}` is read back as the same number. */
  lemma {:induction false} ParseDecimalString(n: int)
    ensures ParseId(DecimalString(n)) == Some(n)
  {
    var s := DecimalString(n);
    DecimalStringUntrimmed(n);
    assert ParseId(s) == SignedInteger(s);
    var m: nat := if n < 0 then -n else n;
    var digits := NatString(m);
    NatStringValue(m);
    UnsignedIntegerOfDigits(digits);
    if n < 0 {
      assert s[0] == '-' && s[1..] == digits;
    } else {
      assert s == digits && IsDigit(s[0]);
    }
  }
}

=== FILE: profile.dfy ===
/** GET /profile: the projection of the signed-in user's provider profile. */
module Profile {
  import opened Wrappers
  import opened Json
  import opened Http

  /** `v?.[0]`, where `None` stands for `undefined`. */
  function FirstElement(v: Option<Value>): (r: Option<Value>)
    ensures r.Some? ==> v.Some? && (v.value.Arr? || v.value.Obj? || v.value.Str?)
    ensures v.Some? && v.value.Arr? ==> (r.Some? <==> |v.value.items| > 0)
    ensures v.Some? && v.value.Arr? && |v.value.items| > 0 ==> r == Some(v.value.items[0])
  {
    match v
    case Some(Arr(items)) => if |items| > 0 then Some(items[0]) else None
    case Some(Obj(fields)) => if "0" in fields then Some(fields["0"]) else None
    case Some(Str(s)) => if |s| > 0 then Some(Str(s[..1])) else None
    case _ => None
  }

  /** `v?.value`: only an object can carry a `value` property. */
  function ValueProperty(v: Option<Value>): (r: Option<Value>)
    ensures r.Some? <==> v.Some? && v.value.Obj? && "value" in v.value.fields
    ensures r.Some? ==> r.value == v.value.fields["value"]
  {
    match v
    case Some(Obj(fields)) => if "value" in fields then Some(fields["value"]) else None
    case _ => None
  }

  /** `user[listKey]?.[0]?.value || null`. */
  function FirstValue(user: Object, listKey: string): (r: Value)
    ensures r == Null || Truthy(r)
    ensures r != Null ==>
      && listKey in user
      && FirstElement(Some(user[listKey])).Some?
      && FirstElement(Some(user[listKey])).value.Obj?
      && "value" in FirstElement(Some(user[listKey])).value.fields
      && FirstElement(Some(user[listKey])).value.fields["value"] == r
    ensures (&& listKey in user && ValueProperty(FirstElement(Some(user[listKey]))).Some?
             && Truthy(ValueProperty(FirstElement(Some(user[listKey]))).value)) ==>
      r == ValueProperty(FirstElement(Some(user[listKey]))).value
    ensures (&& listKey in user && user[listKey].Arr? && |user[listKey].items| > 0
             && user[listKey].items[0].Obj? && "value" in user[listKey].items[0].fields
             && Truthy(user[listKey].items[0].fields["value"])) ==>
      r == user[listKey].items[0].fields["value"]
  {
    var list := if listKey in user then Some(user[listKey]) else None;
    match ValueProperty(FirstElement(list))
    case Some(v) => if Truthy(v) then v else Null
    case None => Null
  }

  /** `{ key: user[key] }`, or nothing when the property is `undefined` and the serialiser drops it. */
  function CopyKey(user: Object, key: string): Object {
    if key in user then map[key := user[key]] else map[]
  }

  /** GET /profile for the user the session carries, if any. */
  function GetProfile(user: Option<Object>): (r: Response)
    ensures user.None? <==> r == Response(401, ErrorBody("Not authenticated"))
    ensures user.Some? ==> r.status == 200 && r.payload.JsonBody? && r.payload.value.Obj?
    ensures user.Some? ==>
      var shown := r.payload.value.fields;
      && shown.Keys <= {"id", "displayName", "email", "photo"}
      && ("id" in shown <==> "id" in user.value)
      && ("id" in shown ==> shown["id"] == user.value["id"])
      && ("displayName" in shown <==> "displayName" in user.value)
      && ("displayName" in shown ==> shown["displayName"] == user.value["displayName"])
      && "email" in shown && shown["email"] == FirstValue(user.value, "emails")
      && "photo" in shown && shown["photo"] == FirstValue(user.value, "photos")
  {
    match user
    case None => Response(401, ErrorBody("Not authenticated"))
    case Some(u) =>
      Response(200, JsonBody(Obj(CopyKey(u, "id") + CopyKey(u, "displayName")
        + map["email" := FirstValue(u, "emails"), "photo" := FirstValue(u, "photos")])))
  }

  /** A profile without e-mail addresses or photos shows `null` for both. */
  lemma MissingListsShowNull(user: Object)
    requires "emails" !in user && "photos" !in user
    ensures var shown := GetProfile(Some(user)).payload.value.fields;
      shown["email"] == Null && shown["photo"] == Null
  {
  }

  /** An address whose `value` is the empty string shows as `null`, not as "". */
  lemma EmptyAddressShowsNull(user: Object)
    requires "emails" in user && user["emails"] == Arr([Obj(map["value" := Str("")])])
    ensures GetProfile(Some(user)).payload.value.fields["email"] == Null
  {
  }
}

=== FILE: summarizer.dfy ===
/** The `summary` operation: `text.split(/(?<=[.!?])\s+/).slice(0, 2).join(" ")`. */
module Summarizer {
  import opened Wrappers
  import opened Text

  predicate IsTerminator(c: char) {
    c == '.' || c == '!' || c == '?'
  }

  /** The separator pattern can start matching at index `q`: the character before ends a sentence
      and the character at `q` is whitespace. */
  predicate BoundaryAt(s: string, q: int) {
    0 < q < |s| && IsTerminator(s[q - 1]) && IsSpace(s[q])
  }

  predicate BoundaryFree(s: string) {
    forall q | 0 < q < |s| :: !BoundaryAt(s, q)
  }

  /** The first index at or after `from` where the separator matches. */
  function FindBoundary(s: string, from: nat): (r: Option<nat>)
    decreases |s| - from
    ensures r.Some? ==> from <= r.value && BoundaryAt(s, r.value)
    ensures forall q | from <= q && (r.None? || q < r.value) :: !BoundaryAt(s, q)
  {
    if from >= |s| then None
    else if BoundaryAt(s, from) then Some(from)
    else FindBoundary(s, from + 1)
  }

  /** Where the greedy `\s+` starting at `q` stops. */
  function SpaceRunEnd(s: string, q: nat): (e: nat)
    requires q <= |s|
    decreases |s| - q
    ensures q <= e <= |s|
    ensures forall k | q <= k < e :: IsSpace(s[k])
    ensures e == |s| || !IsSpace(s[e])
  {
    if q < |s| && IsSpace(s[q]) then SpaceRunEnd(s, q + 1) else q
  }

  /** What a split of a text into sentences looks like: no piece contains a separator, every piece
      but the last ends a sentence, and no piece but the first starts with whitespace. */
  ghost predicate WellFormedPieces(pieces: seq<string>) {
    && |pieces| >= 1
    && (forall k | 0 <= k < |pieces| :: BoundaryFree(pieces[k]))
    && (forall k | 0 <= k < |pieces| - 1 :: |pieces[k]| > 0 && IsTerminator(pieces[k][|pieces[k]| - 1]))
    && (forall k | 1 <= k < |pieces| :: pieces[k] == [] || !IsSpace(pieces[k][0]))
  }

  /** Putting one whole sentence in front of a well-formed split keeps it well-formed. */
  lemma {:induction false} ConsSentence(first: string, rest: seq<string>)
    requires |first| > 0 && IsTerminator(first[|first| - 1]) && BoundaryFree(first)
    requires WellFormedPieces(rest) && (rest[0] == [] || !IsSpace(rest[0][0]))
    ensures WellFormedPieces([first] + rest)
  {
    var pieces := [first] + rest;
    assert forall k | 1 <= k < |pieces| :: pieces[k] == rest[k - 1];
  }

  /** The text before the first boundary is one whole sentence. */
  lemma {:induction false} FirstSentence(s: string, q: nat)
    requires FindBoundary(s, 0) == Some(q)
    ensures |s[..q]| > 0 && IsTerminator(s[..q][q - 1]) && BoundaryFree(s[..q])
  {
    forall j | 0 < j < q ensures !BoundaryAt(s[..q], j) {
      assert !BoundaryAt(s, j);
    }
  }

  /** `text.split(/(?<=[.!?])\s+/)`. */
  function Sentences(s: string): (pieces: seq<string>)
    decreases |s|
    ensures WellFormedPieces(pieces)
    ensures |pieces[0]| <= |s| && pieces[0] == s[..|pieces[0]|]
    ensures |pieces| == 1 <==> BoundaryFree(s)
    ensures |pieces| == 1 ==> pieces[0] == s
  {
    match FindBoundary(s, 0)
    case None => [s]
    case Some(q) =>
      var e := SpaceRunEnd(s, q);
      var rest := Sentences(s[e..]);
      FirstSentence(s, q);
      assert rest[0] == [] || rest[0][0] == s[e];
      ConsSentence(s[..q], rest);
      [s[..q]] + rest
  }

  /** The text read back from its pieces and the separators between them: piece, separator, piece, ... */
  function Interleave(pieces: seq<string>, seps: seq<string>): string
    requires |pieces| == |seps| + 1
    decreases |seps|
  {
    if seps == [] then pieces[0] else pieces[0] + seps[0] + Interleave(pieces[1..], seps[1..])
  }

  /** The whitespace runs the separator consumed, in order. Put back between the pieces of
      `Sentences(s)` they give back `s`: no character is lost or moved by the split. */
  function Separators(s: string): (seps: seq<string>)
    decreases |s|
    ensures |seps| == |Sentences(s)| - 1
    ensures forall k | 0 <= k < |seps| :: |seps[k]| > 0 && IsBlank(seps[k])
    ensures Interleave(Sentences(s), seps) == s
  {
    match FindBoundary(s, 0)
    case None => []
    case Some(q) =>
      var e := SpaceRunEnd(s, q);
      var run, rest := s[q..e], Separators(s[e..]);
      assert |run| > 0 && IsBlank(run) by {
        assert forall k | 0 <= k < |run| :: run[k] == s[q + k];
      }
      SentencesStep(s, q);
      InterleaveCons(s[..q], run, Sentences(s[e..]), rest);
      SplitThree(s, q, e);
      [run] + rest
  }

  /** A text is its part before `q`, its part from `q` to `e`, and its part after `e`. */
  lemma {:induction false} SplitThree(s: string, q: nat, e: nat)
    requires q <= e <= |s|
    ensures s[..q] + s[q..e] + s[e..] == s
  {
    assert s[..q] + s[q..e] == s[..e];
  }

  lemma {:induction false} InterleaveCons(first: string, sep: string, pieces: seq<string>, seps: seq<string>)
    requires |pieces| == |seps| + 1
    ensures Interleave([first] + pieces, [sep] + seps) == first + sep + Interleave(pieces, seps)
  {
    assert ([first] + pieces)[1..] == pieces && ([sep] + seps)[1..] == seps;
  }

  /** `n` separators that are each one space character. */
  function SingleSpaces(n: nat): (seps: seq<string>)
    ensures |seps| == n && forall k | 0 <= k < n :: seps[k] == " "
  {
    seq(n, _ => " ")
  }

  /** `pieces.join(" ")`: the pieces read back with a single space as every separator. */
  function JoinWithSpace(pieces: seq<string>): (r: string)
    requires |pieces| >= 1
    ensures r == Interleave(pieces, SingleSpaces(|pieces| - 1))
  {
    if |pieces| == 1 then pieces[0]
    else
      assert SingleSpaces(|pieces| - 1)[1..] == SingleSpaces(|pieces| - 2);
      pieces[0] + " " + JoinWithSpace(pieces[1..])
  }

  /** `pieces.slice(0, n)`. */
  function Take<T>(xs: seq<T>, n: nat): (r: seq<T>)
    ensures |r| == if |xs| <= n then |xs| else n
    ensures r == xs[..|r|]
  {
    if |xs| <= n then xs else xs[..n]
  }

  /** The first two sentences and one space between them take no more room than the text. */
  lemma {:induction false} TwoSentencesFit(text: string)
    ensures |JoinWithSpace(Take(Sentences(text), 2))| <= |text|
  {
    match FindBoundary(text, 0)
    case None =>
    case Some(q) =>
      var e := SpaceRunEnd(text, q);
      var pieces := Sentences(text);
      assert pieces[1] == Sentences(text[e..])[0];
      assert JoinWithSpace(Take(pieces, 2)) == pieces[0] + " " + pieces[1];
  }

  /** The first two sentences of a text, joined with a single space. */
  function Summary(text: string): (summary: string)
    ensures |summary| <= |text|
    ensures BoundaryFree(text) ==> summary == text
  {
    TwoSentencesFit(text);
    JoinWithSpace(Take(Sentences(text), 2))
  }

  /** Every separator in `s` is a single space character. */
  predicate SingleSpaced(s: string) {
    forall q | 0 < q < |s| && BoundaryAt(s, q) :: OneSpaceAt(s, q)
  }

  /** The whitespace run starting at `q` is a single space character. */
  predicate OneSpaceAt(s: string, q: int) {
    0 <= q < |s| && s[q] == ' ' && (q + 1 == |s| || !IsSpace(s[q + 1]))
  }

  /** In a single-spaced text the separator at a boundary is that one space. */
  lemma {:induction false} SingleSpaceRun(s: string, q: nat)
    requires SingleSpaced(s) && BoundaryAt(s, q)
    ensures SpaceRunEnd(s, q) == q + 1
  {
    assert OneSpaceAt(s, q);
    assert SpaceRunEnd(s, q) == SpaceRunEnd(s, q + 1);
  }

  /** Any suffix of a single-spaced text is single-spaced. */
  lemma {:induction false} SingleSpacedSuffix(s: string, e: nat)
    requires SingleSpaced(s) && e <= |s|
    ensures SingleSpaced(s[e..])
  {
    var rest := s[e..];
    forall j | BoundaryAt(rest, j) ensures OneSpaceAt(rest, j) {
      assert BoundaryAt(s, e + j) && OneSpaceAt(s, e + j);
    }
  }

  /** One step of the split: the first sentence, then the split of what follows its separator. */
  lemma {:induction false} SentencesStep(s: string, q: nat)
    requires FindBoundary(s, 0) == Some(q)
    ensures Sentences(s) == [s[..q]] + Sentences(s[SpaceRunEnd(s, q)..])
  {
  }

  lemma {:induction false} JoinCons(first: string, rest: seq<string>)
    requires |rest| >= 1
    ensures JoinWithSpace([first] + rest) == first + " " + JoinWithSpace(rest)
  {
    assert ([first] + rest)[1..] == rest;
  }

  /** A text is the part before index `q`, the character at `q`, and the part after it. */
  lemma {:induction false} SplitAround(s: string, q: nat)
    requires q < |s|
    ensures s[..q] + [s[q]] + s[q + 1..] == s
  {
    assert s[..q] + [s[q]] == s[..q + 1];
  }

  /** Joining the text before a single space with pieces that join to the text after it gives the whole text. */
  lemma {:induction false} RejoinAtSpace(s: string, q: nat, tail: seq<string>)
    requires q < |s| && s[q] == ' ' && |tail| >= 1 && JoinWithSpace(tail) == s[q + 1..]
    ensures JoinWithSpace([s[..q]] + tail) == s
  {
    calc {
      JoinWithSpace([s[..q]] + tail);
      { JoinCons(s[..q], tail); }
      s[..q] + " " + JoinWithSpace(tail);
      { assert " " == [s[q]]; }
      s[..q] + [s[q]] + s[q + 1..];
      { SplitAround(s, q); }
      s;
    }
  }

  /** Splitting then joining with single spaces gives back a single-spaced text. */
  lemma {:induction false} JoinSentences(s: string)
    requires SingleSpaced(s)
    ensures JoinWithSpace(Sentences(s)) == s
    decreases |s|
  {
    match FindBoundary(s, 0)
    case None =>
    case Some(q) =>
      SingleSpaceRun(s, q);
      var rest := s[q + 1..];
      SingleSpacedSuffix(s, q + 1);
      JoinSentences(rest);
      SentencesStep(s, q);
      assert OneSpaceAt(s, q);
      RejoinAtSpace(s, q, Sentences(rest));
  }

  /** In `first + sep + rest`, where `first` is one whole sentence, `sep` a whitespace run and `rest`
      does not start with whitespace, the separator matches exactly at `sep`. */
  lemma {:induction false} SplitAfterSentence(first: string, sep: string, rest: string)
    requires |first| > 0 && IsTerminator(first[|first| - 1]) && BoundaryFree(first)
    requires |sep| > 0 && IsBlank(sep)
    requires rest == [] || !IsSpace(rest[0])
    ensures FindBoundary(first + sep + rest, 0) == Some(|first|)
    ensures SpaceRunEnd(first + sep + rest, |first|) == |first| + |sep|
  {
    var s := first + sep + rest;
    var q := |first|;
    assert forall k | q <= k < q + |sep| :: s[k] == sep[k - q];
    assert BoundaryAt(s, q);
    forall j | 0 < j < q ensures !BoundaryAt(s, j) {
      assert !BoundaryAt(first, j);
    }
    assert q + |sep| < |s| ==> s[q + |sep|] == rest[0];
  }

  /** Dropping the first piece and the first separator leaves a well-formed split, with whitespace
      separators, whose text does not start with whitespace; the first piece is one whole sentence. */
  lemma {:induction false} WellFormedTail(pieces: seq<string>, seps: seq<string>)
    requires WellFormedPieces(pieces) && |pieces| > 1 && |seps| == |pieces| - 1
    requires forall k | 0 <= k < |seps| :: |seps[k]| > 0 && IsBlank(seps[k])
    ensures WellFormedPieces(pieces[1..])
    ensures forall k | 0 <= k < |seps| - 1 :: |seps[1..][k]| > 0 && IsBlank(seps[1..][k])
    ensures var rest := Interleave(pieces[1..], seps[1..]); rest == [] || !IsSpace(rest[0])
    ensures |pieces[0]| > 0 && IsTerminator(pieces[0][|pieces[0]| - 1]) && BoundaryFree(pieces[0])
    ensures |seps[0]| > 0 && IsBlank(seps[0])
  {
    var tail := pieces[1..];
    assert forall k | 0 <= k < |tail| :: tail[k] == pieces[k + 1];
    assert forall k | 0 <= k < |seps| - 1 :: seps[1..][k] == seps[k + 1];
    if |tail| > 1 {
      assert |tail[0]| > 0;
      assert Interleave(tail, seps[1..])[0] == tail[0][0];
    }
  }

  /** A well-formed split is the only one: reading pieces and whitespace separators back into a text
      and splitting that text gives the same pieces and the same separators. */
  lemma {:induction false} SentencesOfInterleave(pieces: seq<string>, seps: seq<string>)
    requires WellFormedPieces(pieces) && |seps| == |pieces| - 1
    requires forall k | 0 <= k < |seps| :: |seps[k]| > 0 && IsBlank(seps[k])
    ensures Sentences(Interleave(pieces, seps)) == pieces
    ensures Separators(Interleave(pieces, seps)) == seps
    decreases |pieces|
  {
    if |pieces| > 1 {
      WellFormedTail(pieces, seps);
      SentencesOfInterleave(pieces[1..], seps[1..]);
      InterleaveStep(pieces, seps);
    }
  }

  /** One step of `SentencesOfInterleave`: once the tail splits back into its pieces and separators,
      so does the whole. */
  lemma {:induction false} InterleaveStep(pieces: seq<string>, seps: seq<string>)
    requires |pieces| > 1 && |seps| == |pieces| - 1
    requires |pieces[0]| > 0 && IsTerminator(pieces[0][|pieces[0]| - 1]) && BoundaryFree(pieces[0])
    requires |seps[0]| > 0 && IsBlank(seps[0])
    requires var rest := Interleave(pieces[1..], seps[1..]);
      && (rest == [] || !IsSpace(rest[0]))
      && Sentences(rest) == pieces[1..] && Separators(rest) == seps[1..]
    ensures Sentences(Interleave(pieces, seps)) == pieces
    ensures Separators(Interleave(pieces, seps)) == seps
  {
    SplitStep(pieces[0], seps[0], Interleave(pieces[1..], seps[1..]));
    assert pieces == [pieces[0]] + pieces[1..];
    assert seps == [seps[0]] + seps[1..];
  }

  /** Splitting one sentence, a whitespace run and a text that does not start with whitespace takes
      off exactly that sentence and that run. */
  lemma {:induction false} SplitStep(first: string, sep: string, rest: string)
    requires |first| > 0 && IsTerminator(first[|first| - 1]) && BoundaryFree(first)
    requires |sep| > 0 && IsBlank(sep)
    requires rest == [] || !IsSpace(rest[0])
    ensures Sentences(first + sep + rest) == [first] + Sentences(rest)
    ensures Separators(first + sep + rest) == [sep] + Separators(rest)
  {
    var s := first + sep + rest;
    var q, e := |first|, |first| + |sep|;
    SplitAfterSentence(first, sep, rest);
    assert s[..q] == first && s[q..e] == sep && s[e..] == rest;
  }

  /** Joining well-formed pieces with single spaces and splitting the result gives the pieces back. */
  lemma {:induction false} SentencesOfJoin(pieces: seq<string>)
    requires WellFormedPieces(pieces)
    ensures Sentences(JoinWithSpace(pieces)) == pieces
  {
    SentencesOfInterleave(pieces, SingleSpaces(|pieces| - 1));
  }

  /** A text of at most two sentences, with single spaces between them, is its own summary. */
  lemma {:induction false} SummaryOfShortText(text: string)
    requires SingleSpaced(text)
    requires |Sentences(text)| <= 2
    ensures Summary(text) == text
  {
    JoinSentences(text);
    assert Take(Sentences(text), 2) == Sentences(text);
  }

  /** The summary consists of the text's first two sentences, at most two, read back with one space
      between them; so summarising a summary changes nothing. */
  lemma {:induction false} SummaryIdempotent(text: string)
    ensures Sentences(Summary(text)) == Take(Sentences(text), 2)
    ensures |Sentences(Summary(text))| <= 2
    ensures Separators(Summary(text)) == SingleSpaces(|Sentences(Summary(text))| - 1)
    ensures Summary(Summary(text)) == Summary(text)
  {
    var pieces := Sentences(text);
    var head := Take(pieces, 2);
    assert WellFormedPieces(head) by {
      assert forall k | 0 <= k < |head| :: head[k] == pieces[k];
    }
    SentencesOfInterleave(head, SingleSpaces(|head| - 1));
    assert Take(head, 2) == head;
  }
}

=== FILE: text.dfy ===
/** The JavaScript string primitives the server relies on: whitespace, `trim`,
    `toLowerCase` (restricted to ASCII) and `includes`. */
module Text {

  /** ECMAScript WhiteSpace and LineTerminator code points: what `trim` strips and what `\s` matches. */
  predicate IsSpace(c: char) {
    || c == '\t' || c == '\n' || c == '\U{000B}' || c == '\U{000C}' || c == '\r'
    || c == ' ' || c == '\U{00A0}' || c == '\U{1680}'
    || ('\U{2000}' <= c <= '\U{200A}')
    || c == '\U{2028}' || c == '\U{2029}' || c == '\U{202F}' || c == '\U{205F}'
    || c == '\U{3000}' || c == '\U{FEFF}'
  }

  /** Every character of `s` is whitespace (vacuously true of the empty string). */
  predicate IsBlank(s: string) {
    forall i | 0 <= i < |s| :: IsSpace(s[i])
  }

  /** `trimStart`: the suffix of `s` left after dropping its leading whitespace. */
  function TrimStart(s: string): (r: string)
    ensures |r| <= |s| && r == s[|s| - |r|..]
    ensures forall k | 0 <= k < |s| - |r| :: IsSpace(s[k])
    ensures r == [] || !IsSpace(r[0])
  {
    if |s| > 0 && IsSpace(s[0]) then
      var r := TrimStart(s[1..]);
      assert forall k | 1 <= k < |s| - |r| :: s[k] == s[1..][k - 1];
      r
    else
      s
  }

  /** `trimEnd`: the prefix of `s` left after dropping its trailing whitespace. */
  function TrimEnd(s: string): (r: string)
    ensures |r| <= |s| && r == s[..|r|]
    ensures forall k | |r| <= k < |s| :: IsSpace(s[k])
    ensures r == [] || !IsSpace(r[|r| - 1])
  {
    if |s| > 0 && IsSpace(s[|s| - 1]) then
      var init := s[..|s| - 1];
      var r := TrimEnd(init);
      assert init[..|r|] == s[..|r|];
      assert forall k | |r| <= k < |s| - 1 :: s[k] == init[k];
      r
    else
      s
  }

  /** `String.prototype.trim`: the text between the leading and the trailing whitespace. */
  function Trim(s: string): string {
    TrimEnd(TrimStart(s))
  }

  /** The trimmed text neither starts nor ends with whitespace. */
  lemma {:induction false} TrimHasNoOuterWhitespace(s: string)
    ensures Trim(s) == [] || (!IsSpace(Trim(s)[0]) && !IsSpace(Trim(s)[|Trim(s)| - 1]))
  {
    var t := TrimStart(s);
    var r := TrimEnd(t);
    assert r == [] || r[0] == t[0];
  }

  /** The trimmed text occurs in the original, at the end of the leading whitespace, with only
      whitespace before and after it. */
  lemma {:induction false} TrimIsTextBetweenWhitespace(s: string)
    ensures var i := |s| - |TrimStart(s)|;
      && 0 <= i <= |s| - |Trim(s)|
      && OccursAt(s, Trim(s), i) && IsBlank(s[..i]) && IsBlank(s[i + |Trim(s)|..])
  {
    var t := TrimStart(s);
    var r := TrimEnd(t);
    LeadingRunIsBlank(s, t);
    TrailingRunIsBlank(t, r);
    PlaceInOriginal(s, t, r);
  }

  /** A prefix `r` of a suffix `t` of `s`, each cut off only whitespace, sits in `s` between whitespace. */
  lemma {:induction false} PlaceInOriginal(s: string, t: string, r: string)
    requires |t| <= |s| && t == s[|s| - |t|..] && |r| <= |t| && r == t[..|r|] && IsBlank(t[|r|..])
    ensures OccursAt(s, r, |s| - |t|) && IsBlank(s[|s| - |t| + |r|..])
  {
    var i := |s| - |t|;
    assert s[i..i + |r|] == t[..|r|];
    assert s[i + |r|..] == t[|r|..];
  }

  lemma {:induction false} LeadingRunIsBlank(s: string, t: string)
    requires t == TrimStart(s)
    ensures IsBlank(s[..|s| - |t|])
  {
    var before := s[..|s| - |t|];
    assert forall k | 0 <= k < |before| :: before[k] == s[k];
  }

  lemma {:induction false} TrailingRunIsBlank(t: string, r: string)
    requires r == TrimEnd(t)
    ensures IsBlank(t[|r|..])
  {
    var after := t[|r|..];
    assert forall k | 0 <= k < |after| :: after[k] == t[|r| + k];
  }

  /** Every character of the trimmed string comes from the original, after the leading whitespace. */
  lemma TrimmedCharsComeFromOriginal(s: string, i: int)
    requires 0 <= i < |Trim(s)|
    ensures Trim(s)[i] == s[|s| - |TrimStart(s)| + i]
  {
  }

  /** A string without leading or trailing whitespace is its own trim. */
  lemma TrimUntrimmed(s: string)
    requires |s| > 0 && !IsSpace(s[0]) && !IsSpace(s[|s| - 1])
    ensures Trim(s) == s
  {
  }

  /** `!s.trim()` holds exactly when the string is empty or all whitespace. */
  lemma {:induction false} TrimEmptyIffBlank(s: string)
    ensures Trim(s) == [] <==> IsBlank(s)
  {
    var t := TrimStart(s);
    if Trim(s) == [] {
      assert t == [];
    }
  }

  /** ASCII `toLowerCase` of one character. */
  function LowerChar(c: char): char {
    if 'A' <= c <= 'Z' then (c as int + 32) as char else c
  }

  /** `toLowerCase`, restricted to ASCII letters: each capital becomes its small letter and every
      other character is kept. */
  function Lower(s: string): (r: string)
    ensures |r| == |s|
    ensures forall i | 0 <= i < |s| :: r[i] == LowerChar(s[i])
  {
    if s == [] then [] else [LowerChar(s[0])] + Lower(s[1..])
  }

  /** No ASCII capital letter occurs in `s`. */
  predicate IsLowerCase(s: string) {
    forall i | 0 <= i < |s| :: !('A' <= s[i] <= 'Z')
  }

  lemma LowerIsLowerCase(s: string)
    ensures IsLowerCase(Lower(s))
    ensures Lower(Lower(s)) == Lower(s)
  {
  }

  /** A lower-case string is its own lower case. */
  lemma LowerOfLowerCase(s: string)
    requires IsLowerCase(s)
    ensures Lower(s) == s
  {
  }

  lemma LowerAppend(a: string, b: string)
    ensures Lower(a + b) == Lower(a) + Lower(b)
  {
  }

  /** `w` occurs in `s` starting at index `i`. */
  predicate OccursAt(s: string, w: string, i: int) {
    0 <= i && i + |w| <= |s| && s[i..i + |w|] == w
  }

  /** `s.includes(w)`. */
  predicate Contains(s: string, w: string) {
    exists i | 0 <= i <= |s| - |w| :: OccursAt(s, w, i)
  }

  /** `s.includes("")` holds for every string, and no string longer than `s` occurs in it. */
  lemma {:induction false} ContainsBounds(s: string, w: string)
    ensures w == [] ==> Contains(s, w)
    ensures Contains(s, w) ==> |w| <= |s|
  {
    if w == [] {
      assert OccursAt(s, w, 0);
    }
  }

  /** An occurrence survives appending text on either side. */
  lemma {:induction false} ContainsInContext(a: string, s: string, b: string, w: string)
    requires Contains(s, w)
    ensures Contains(a + s + b, w)
  {
    var i :| 0 <= i <= |s| - |w| && OccursAt(s, w, i);
    assert (a + s + b)[|a| + i..|a| + i + |w|] == s[i..i + |w|];
    assert OccursAt(a + s + b, w, |a| + i);
  }

  /** The position of the first occurrence of `x`: where `UnsignedInteger` finds the `.` of a literal,
      and the reference order for the first-occurrence order of a `Set`. */
  function IndexOf<T(==)>(xs: seq<T>, x: T): (k: nat)
    requires x in xs
    ensures k < |xs| && xs[k] == x
    ensures x !in xs[..k]
  {
    if xs[0] == x then 0 else 1 + IndexOf(xs[1..], x)
  }

  /** Any position holding `x` with no earlier `x` is the index `indexOf` reports. */
  lemma IndexOfUnique<T>(xs: seq<T>, x: T, k: nat)
    requires k < |xs| && xs[k] == x && x !in xs[..k]
    ensures IndexOf(xs, x) == k
  {
  }
}

=== FILE: wrappers.dfy ===
/** Failure-carrying wrappers used by the rest of the model. */
module Wrappers {

  /** A value that may be absent; `None` plays the role of JavaScript's `undefined`/`NaN` where noted. */
  datatype Option<+T> = None | Some(value: T)

  /** The outcome of an operation that may throw: `Failure` carries what was thrown. */
  datatype Result<+R, +E> = Success(value: R) | Failure(error: E)
}
